=== FILE: README.md ===
# Tipster qualification: a Dafny model

This project models the decision logic of the typersi.com tipster scraper
in `bet.py`. A scheduled job reads two listings of tipsters, from the
"remainder" page and from the "tomorrow" page. It fetches each listed
tipster's profile page and reads a win rate from it. Tipsters whose rate
is strictly above 75% are qualified. The job then requests the "tomorrow"
page a second time, keeps the tips on it whose tipster is qualified, and
publishes both lists for the dashboard. The two requests of the "tomorrow"
page (bet.py:147, bet.py:181) are independent in the model: one can fail
while the other succeeds. A `DatabaseManager` can also upsert tipster rows into
an SQLite table that has CHECK constraints.

The model abstracts HTML away. A table is the sequence of its rows, and a
row is the raw texts of its `td` cells. A listing is the sequence of its
name cells, each with the anchor found in it, if any. A profile page is
the text of its win-rate element, if found, and the rows of its matches
table, if found. Python's `str.strip()` is modelled exactly, with Python's
whitespace set. Python's `float()` is a parameter of the model.

Files:

- `wrappers.dfy`: `Option` and `Result`.
- `seqs.dfy`: order-preserving filter, option-collect, and first-wins
  deduplication by key, with their algebra.
- `text.dfy`: `strip()`.
- `scraper.dfy`: row projection, listing parsing, win-rate extraction and
  profile parsing (`TipsterScraper`).
- `qualification.dfy`: the two qualified lists and the tip
  cross-reference (the body of `scheduled_job`).
- `pipeline.dfy`: one whole run. It covers fetch failures, the exceptions
  that end a run, publication of the snapshot, and the job as written
  next to the job as intended.
- `database.dfy`: `upsert_tipsters` over a map keyed by name.

Two behaviours of the code are easy to misread. The model follows the code
in both.

- The two qualified lists are concatenated as they are (bet.py:320). No
  name is deduplicated across the lists or within the tomorrow list. A
  name that qualifies on both listings is published twice.
- `replace('%', '')` removes every percent sign, not only a trailing one
  (bet.py:111).

## Model

| member | source | states |
|---|---|---|
| Scraper.MatchOf | bet.py:124-137 | a profile row yields a match exactly when it has at least 9 cells, and every field of the match is stripped |
| Scraper.MatchOfIgnoresTail | bet.py:126-137 | a row of at least 9 cells yields the same match as its first 9 cells: later cells are never read |
| Scraper.MatchOfStripsCells | bet.py:126-137 | stripping every cell before reading changes no match: each field is the stripped text of its cell |
| Scraper.MatchRoundTrip | bet.py:126-137 | the cells built from a stripped match project back to that same match, whatever cell 0 holds |
| Scraper.ProjectMatches | bet.py:123-137 | the matches of a table are at most one per row; each comes from a row of at least 9 cells, and every such row contributes its match |
| Scraper.ProjectMatchesRoundTrip | bet.py:124-137 | the table built from a list of stripped matches, one row per match, projects back to that list in order |
| Scraper.ProjectMatchesAppend | bet.py:124-137 | the matches of two runs of rows are the first run's matches followed by the second's, whatever the cells hold |
| Scraper.ShortRowSkipped | bet.py:127 | inserting a row of fewer than 9 cells anywhere in a profile table changes nothing |
| Scraper.TipOf | bet.py:165-175 | a tips row yields a tip exactly when it has at least 9 cells, and every field of the tip is stripped |
| Scraper.TipOfIgnoresTail | bet.py:165-175 | a row of at least 9 cells yields the same tip as its first 9 cells: later cells are never read |
| Scraper.TipOfStripsCells | bet.py:165-175 | stripping every cell before reading changes no tip: each field is the stripped text of its cell |
| Scraper.TipRoundTrip | bet.py:165-175 | a stripped tip survives the trip through cells, whatever cell 0 and the stake cell 6 hold |
| Scraper.ShortTipRowSkipped | bet.py:166 | inserting a row of fewer than 9 cells anywhere in a tips table changes nothing |
| Scraper.ProjectTipsOfTable | bet.py:163-175 | one table's tips are stripped; each comes from a full row, and every full row contributes its tip |
| Scraper.ProjectTips | bet.py:154-176 | every tip of the page is stripped, and a tip is on the page exactly when some table has a full row it is read from |
| Scraper.ProjectTipsFlattens | bet.py:160-176 | the tips of several tables are the tips of all their rows taken table after table |
| Scraper.ProjectTipsAppend | bet.py:162-176 | the tips of two groups of tables are the first group's tips followed by the second's |
| Scraper.CandidateOf | bet.py:84-87 | a candidate's name has no whitespace at either end and is no longer than the anchor text; its URL is the site base followed by the anchor's href |
| Scraper.CandidateOfPadded | bet.py:84-86 | an anchor whose text is a name padded with whitespace names the candidate by the bare name, at the site base followed by the href |
| Scraper.ParseListing | bet.py:76-88 | a listing parses exactly when every anchor found has an href; candidates are at most one per cell, with stripped names and URLs that start with the site base |
| Scraper.ParseListingCandidates | bet.py:81-87 | a parsed listing holds the candidate of every anchored cell, and each candidate in it is the candidate of some anchored cell |
| Scraper.ParseListingUnfold | bet.py:81-87 | a listing that parses has a well-formed first cell and a rest that parses, and its candidates are the first cell's (one if anchored, none otherwise) followed by the rest's |
| Scraper.ParseListingFold | bet.py:81-87 | conversely, an anchored cell with an href (or a bare cell) in front of cells that parse gives a listing that parses, with that cell's candidate first |
| Scraper.ParseListingAppend | bet.py:81-87 | two runs of cells that both parse give the first run's candidates followed by the second's: the listing keeps document order |
| Scraper.ListingRoundTrip | bet.py:81-87 | the cells built from candidates with stripped names and site URLs parse back to those candidates in order |
| Scraper.BareCellSkipped | bet.py:83 | a name cell without the anchor is skipped wherever it appears |
| Scraper.StripPercent | bet.py:111 | the result has no percent sign, is a subsequence of the text, and keeps every other character as often as the text has it |
| Scraper.WinRate | bet.py:107-119 | a missing element gives no rate; any rate read is the parse of a text without percent signs |
| Scraper.WinRateIgnoresPercent | bet.py:109-114 | a percent sign anywhere inside the element's text does not change the rate read |
| Scraper.ParseProfile | bet.py:100-142 | the rate is the win-rate reading of the element's text; a missing matches table gives no matches; a present one gives at most one match per row, each from a row of at least 9 cells, and every such row contributes its match; every match is stripped |
| Scraper.ProfileRoundTrip | bet.py:121-142 | a page built from a rate text and stripped matches, one row per match, parses back to that rate and those matches in order |
| Text.Trim | bet.py:84 | the result has no whitespace at either end and is no longer than the text |
| Text.TrimCutsOnlySpace | bet.py:84 | the result is a contiguous part of the text, and only whitespace is cut before and after it |
| Text.TrimKeepsTrimmed | bet.py:342 | stripping a text without whitespace at either end changes nothing |
| Text.TrimIdempotent | bet.py:84 | stripping a stripped text changes nothing |
| Text.TrimPadded | bet.py:126 | stripping removes whitespace padded on either side of a text that is already stripped |
| Qualification.Passes | bet.py:288-292 | a failed fetch, a missing rate and a rate of exactly 75 all fail; a passing candidate's rate is above 75 |
| Qualification.Screen | bet.py:287-300 | a candidate yields a qualified entry exactly when its profile was fetched and its rate is present and above 75; the entry carries the candidate's name and URL and the profile's rate and matches |
| Qualification.ScreenedMembers | bet.py:286-292 | every screened entry is above the threshold and comes from a passing candidate, and every passing candidate is screened |
| Qualification.RemainderQualified | bet.py:283-301 | the remainder list has at most one entry per listed candidate and no name twice |
| Qualification.RemainderQualifiedExactly | bet.py:283-301 | the remainder list has distinct names; each entry passes and comes from a listed candidate; every passing candidate's name is in it |
| Qualification.QualifyRemainder | bet.py:283-301 | the loop with its set of added names builds the first-wins deduplicated list of screened candidates |
| Qualification.RemainderFirstWins | bet.py:294-301 | the first passing candidate with a name is the entry kept for that name |
| Qualification.RemainderDropsLaterDuplicate | bet.py:294 | a later passing candidate whose name is already qualified adds nothing |
| Qualification.ScreenTomorrow | bet.py:306-316 | a tomorrow candidate passes under the same rule and carries no matches |
| Qualification.TomorrowQualified | bet.py:305-316 | every tomorrow entry has no matches, is above the threshold and comes from a passing candidate; every passing candidate has an entry |
| Qualification.TomorrowKeepsDuplicates | bet.py:305-316 | the tomorrow list is computed candidate by candidate, and a candidate listed twice qualifies twice |
| Qualification.ConcatenationRepeats | bet.py:320 | a name that passes on both listings appears twice in the combined list |
| Qualification.QualifiedNamesExactly | bet.py:283-320 | a name is in the combined list exactly when some candidate of either listing with that name passes |
| Qualification.CrossReference | bet.py:337-349 | the kept tips are a subsequence of the page's tips; a tip is kept exactly when its stripped tipster name is qualified, as many times as it occurs |
| Qualification.CrossReferenceOfProjectedTips | bet.py:338-346 | for tips read from the page, a tip is kept exactly when its tipster name is qualified |
| Pipeline.ProfileLookup | bet.py:90-98 | a profile is found exactly when its page was fetched, and it is that page's parse |
| Pipeline.FetchListing | bet.py:66-88 | a listing fetch fails the run exactly when the page was fetched and one of its anchors has no href; a failed request gives no candidates; otherwise the candidates are the listing's parse |
| Pipeline.FetchTips | bet.py:144-152 | a failed request gives no tips; a fetched page gives the tips of all its rows, table after table, each stripped |
| Pipeline.Finish | bet.py:320-352 | once both listings are read, every published entry is above 75, and the published tips are page tips, in page order, each by a qualified tipster |
| Pipeline.RunJob | bet.py:271-355 | a run fails exactly when a listing parse raises; a completed run's entries are all above 75, and its tips are a subsequence of the page's tips and all by qualified tipsters |
| Pipeline.JobQualifiedExactly | bet.py:286-320 | after a completed run a name is qualified exactly when some candidate with that name, on either listing, passes |
| Pipeline.JobComposition | bet.py:283-352 | a completed run publishes the remainder's qualified candidates, first occurrence of each name only, followed by the tomorrow listing's qualified candidates with repeats kept, and exactly the page tips whose stripped tipster name is among those names, in page order |
| Pipeline.JobTipsExactly | bet.py:333-352 | after a completed run a page tip is published exactly when its tipster is qualified |
| Pipeline.NameInBothListsAppearsTwice | bet.py:320 | a tipster that passes on both listings is published twice |
| Pipeline.PassesExactly | bet.py:90-119 | a candidate passes exactly when its profile page was fetched and its rate parses above 75; a rate of exactly 75 fails |
| Pipeline.MalformedWinRateExcluded | bet.py:113-119 | a missing win-rate element, or a text that does not parse, disqualifies the candidate |
| Pipeline.PercentRate | bet.py:109-114 | a rate text made of a number and a percent sign reads as that number |
| Pipeline.Publish | bet.py:327-355 | a completed run replaces both published lists; a failed run leaves them as they were |
| Pipeline.ScheduledJob | bet.py:271-355 | a failed run keeps the published lists; a completed one publishes exactly the run's snapshot, so only entries above 75 and only tips by published tipsters |
| Pipeline.ScheduledJobAsWritten | bet.py:178-186 | the job as written keeps the published lists whenever the tomorrow listing was fetched, and acts as intended when that request fails |
| Pipeline.RunJobAsWritten | bet.py:178-186 | the run as written fails whenever the tomorrow listing was fetched |
| Pipeline.AsWrittenDiscardsRun | bet.py:183 | the job as written keeps the previous snapshot whenever the tomorrow listing was fetched |
| Pipeline.AsWrittenAgreesWhenTomorrowFails | bet.py:180-186 | when the tomorrow listing request fails, the run as written and the intended run agree |
| Pipeline.AsWrittenDiffers | bet.py:304 | on an empty tomorrow listing that was fetched, the intended job publishes an empty snapshot and the job as written keeps the old one |
| Database.LastFor | bet.py:236-244 | the row applied for a name is a row of the batch with that name, and no later row of the batch has that name |
| Database.ApplyRows | bet.py:236-244 | executing the rows gives the table exactly the batch's names on top of its own, and leaves names outside the batch as they were |
| Database.Upsert | bet.py:232-251 | a batch with a CHECK violation leaves the table as it was; a valid batch inserts or overwrites every name in it, stamped with the write time, and leaves other names alone |
| Database.ApplyRowsEffect | bet.py:236-244 | executing the rows one after another leaves each name of the batch holding its last row, stamped with the write time, and every other name as it was |
| Database.UpsertOne | bet.py:236-244 | one valid row inserts its name or overwrites every column of the existing row, and no other name changes |
| Database.UpsertOneSize | bet.py:237-239 | one valid row adds a key exactly when its name is new |
| Database.UpsertIdempotent | bet.py:236-244 | upserting a batch twice gives the same table as upserting it once at the later time |
| Database.UpsertKeepsChecks | bet.py:213-219 | a table whose rows satisfy the CHECK constraints still satisfies them after any upsert |
| Database.BadRowDiscardsBatch | bet.py:245-251 | one row that violates a CHECK constraint discards the whole batch |

## Left out

- HTTP requests are inputs. Each page is `None` when its request fails. `requests` raises `RequestException`, which is caught, and the fetch returns no data.
- HTML parsing with BeautifulSoup and CSS selectors is out of scope. Tables, name cells and the win-rate text are given already located.
- Python's `float()` is the `NumberParser` parameter. NaN and infinity are not modelled, so a NaN rate's failure of `> 75` is not represented.
- `analyze_and_visualize`, the Flask routes, the cache, the `schedule` loop, threads and logging are out of scope. They do not affect the published lists: the chart's own exceptions are caught.
- `init_db` is out of scope: the DDL statements and the `idx_win_rate` index are not modelled. Its CHECK constraints are modelled as `Database.RowChecks`. A failure of `DatabaseManager()` at the start of a run is not modelled.
- The unused configuration is not modelled: `MIN_TIPS`, the e-mail and SMTP settings.
- Database.Upsert: the modelled rows name every column explicitly. The job never calls `upsert_tipsters`, and its qualified entries have no `tips` key.
- Database.Upsert: SQL NULL values are not modelled, and one `now` stands for the `CURRENT_TIMESTAMP` of the whole batch.
- Scraper.WinRate: its contract states only that a rate comes from parsing a text without percent signs. The exact chain (strip, remove `%`, parse) is its definition. The partner property is `Scraper.WinRateIgnoresPercent`.
- Qualification.TomorrowKeepsDuplicates: each profile URL is assumed to return the same page for every request within a run (bet.py:287, bet.py:307). A profile fetched twice is modelled as one lookup, so a page that changes between two requests is not represented.
- Pipeline.RunJob: exceptions raised after the qualified list is published (bet.py:327) are not modelled. Every modelled failure happens while the listings are read, which is before either list is assigned.

## Findings

| source | as written | input that shows it | evidently intended | confidence | as-written member | corrected member |
|---|---|---|---|---|---|---|
| bet.py:183 | `fetch_tipsters_from_tomorrow_tips_page` calls `self.parse_tomorrow_tipsters_page`. `TipsterScraper` has no method of that name, so the call raises `AttributeError`, which is not a `RequestException`. It reaches the job's outer handler, and the run ends before either list is published. | any run whose request for the tomorrow page succeeds, even one whose tomorrow listing is empty | call `parse_tomorrow_tips_page` (bet.py:188-200), so the tomorrow listing is parsed like the remainder listing and its candidates are screened | not executed | Pipeline.RunJobAsWritten, Pipeline.AsWrittenDiffers | Pipeline.RunJob, Pipeline.JobQualifiedExactly |

=== FILE: database.dfy ===
/** The `tipsters` table and `DatabaseManager.upsert_tipsters`: a batch of
    rows is inserted or overwritten by name inside one transaction, which
    is committed only when every row passes the table's CHECK constraints. */
module Database {
  import opened Seqs

  /** `CURRENT_TIMESTAMP` at the time of the write. */
  type Timestamp = int

  /** A stored row, keyed by name in the table map. */
  datatype StoredTipster = StoredTipster(winRate: real, tips: int, lastUpdated: Timestamp, profileUrl: string)

  /** One parameter set of the batched statement. */
  datatype TipsterRow = TipsterRow(name: string, winRate: real, tips: int, profileUrl: string)

  type TipsterTable = map<string, StoredTipster>

  /** `CHECK(win_rate BETWEEN 0 AND 100)` and `CHECK(tips >= 0)`. */
  predicate RowChecks(row: TipsterRow) {
    0.0 <= row.winRate <= 100.0 && row.tips >= 0
  }

  predicate StoredChecks(t: StoredTipster) {
    0.0 <= t.winRate <= 100.0 && t.tips >= 0
  }

  /** Every stored row satisfies the CHECK constraints. */
  predicate TableValid(table: TipsterTable) {
    forall name :: name in table ==> StoredChecks(table[name])
  }

  predicate BatchValid(rows: seq<TipsterRow>) {
    forall i :: 0 <= i < |rows| ==> RowChecks(rows[i])
  }

  function RowName(row: TipsterRow): string {
    row.name
  }

  function BatchNames(rows: seq<TipsterRow>): set<string> {
    KeySet(RowName, rows)
  }

  /** What a row writes: its values, stamped with the write time. */
  function Stored(row: TipsterRow, now: Timestamp): StoredTipster {
    StoredTipster(row.winRate, row.tips, now, row.profileUrl)
  }

  /** Row `i` carries `name` and no later row does. */
  predicate IsLastWith(rows: seq<TipsterRow>, i: int, name: string) {
    0 <= i < |rows| && rows[i].name == name && forall j :: i < j < |rows| ==> rows[j].name != name
  }

  /** The last row of the batch carrying `name`. */
  function LastFor(rows: seq<TipsterRow>, name: string): (row: TipsterRow)
    requires name in BatchNames(rows)
    ensures row in rows && row.name == name
    ensures exists i :: IsLastWith(rows, i, name) && rows[i] == row
  {
    var last := rows[|rows| - 1];
    if last.name == name then last
    else
      var init := rows[..|rows| - 1];
      KeySetSnoc(RowName, init, last);
      assert rows == init + [last];
      var row := LastFor(init, name);
      var i :| IsLastWith(init, i, name) && init[i] == row;
      IsLastWithSnoc(init, last, i, name);
      row
  }

  /** A later row with another name leaves the last row for `name` as it was. */
  lemma IsLastWithSnoc(rows: seq<TipsterRow>, other: TipsterRow, i: int, name: string)
    requires IsLastWith(rows, i, name) && other.name != name
    ensures IsLastWith(rows + [other], i, name) && (rows + [other])[i] == rows[i]
  {
  }

  /** The rows executed one after another, each inserting its name or
      overwriting every column of the existing row: the table gains exactly
      the batch's names, and names outside the batch keep their rows. */
  function ApplyRows(table: TipsterTable, rows: seq<TipsterRow>, now: Timestamp): (r: TipsterTable)
    ensures r.Keys == table.Keys + BatchNames(rows)
    ensures forall name :: name in table && name !in BatchNames(rows) ==> r[name] == table[name]
  {
    if |rows| == 0 then table
    else
      KeySetSnoc(RowName, rows[..|rows| - 1], rows[|rows| - 1]);
      assert rows == rows[..|rows| - 1] + [rows[|rows| - 1]];
      ApplyRows(table, rows[..|rows| - 1], now)[rows[|rows| - 1].name := Stored(rows[|rows| - 1], now)]
  }

  /** Executing the rows leaves every name of the batch holding its last
      row, stamped with the write time, and every other name untouched. */
  lemma {:induction false} ApplyRowsEffect(table: TipsterTable, rows: seq<TipsterRow>, now: Timestamp)
    ensures ApplyRows(table, rows, now).Keys == table.Keys + BatchNames(rows)
    ensures forall name :: name in BatchNames(rows) ==>
              ApplyRows(table, rows, now)[name] == Stored(LastFor(rows, name), now)
    ensures forall name :: name in table && name !in BatchNames(rows) ==>
              ApplyRows(table, rows, now)[name] == table[name]
  {
    if |rows| > 0 {
      var init := rows[..|rows| - 1];
      var last := rows[|rows| - 1];
      assert rows == init + [last];
      KeySetSnoc(RowName, init, last);
      ApplyRowsEffect(table, init, now);
      var r := ApplyRows(table, rows, now);
      assert r == ApplyRows(table, init, now)[last.name := Stored(last, now)];
      forall name | name in BatchNames(rows) ensures r[name] == Stored(LastFor(rows, name), now) {
        if name != last.name {
          assert LastFor(rows, name) == LastFor(init, name);
        }
      }
    }
  }

  /** The whole batch, or nothing: a CHECK failure raises before the commit,
      and closing the connection discards the open transaction. */
  function Upsert(table: TipsterTable, rows: seq<TipsterRow>, now: Timestamp): (r: TipsterTable)
    ensures !BatchValid(rows) ==> r == table
    ensures BatchValid(rows) ==> r.Keys == table.Keys + BatchNames(rows)
    ensures BatchValid(rows) ==> forall name :: name in BatchNames(rows) ==> r[name] == Stored(LastFor(rows, name), now)
    ensures forall name :: name in table && name !in BatchNames(rows) ==> r[name] == table[name]
  {
    if BatchValid(rows) then
      ApplyRowsEffect(table, rows, now);
      ApplyRows(table, rows, now)
    else table
  }

  /** A single row: an absent name is inserted, a present one has every
      column overwritten, and no other name changes. */
  lemma UpsertOne(table: TipsterTable, row: TipsterRow, now: Timestamp)
    requires RowChecks(row)
    ensures Upsert(table, [row], now) == table[row.name := Stored(row, now)]
  {
    assert BatchNames([row]) == {row.name} by {
      KeySetSnoc(RowName, [], row);
      assert [] + [row] == [row];
    }
    assert LastFor([row], row.name) == row;
  }

  /** A single row adds a key exactly when its name is new. */
  lemma UpsertOneSize(table: TipsterTable, row: TipsterRow, now: Timestamp)
    requires RowChecks(row)
    ensures row.name !in table ==> |Upsert(table, [row], now)| == |table| + 1
    ensures row.name in table ==> |Upsert(table, [row], now)| == |table|
  {
    UpsertOne(table, row, now);
  }

  /** Upserting the same batch twice leaves the table as one upsert at the
      later time does: the first write is entirely overwritten. */
  lemma UpsertIdempotent(table: TipsterTable, rows: seq<TipsterRow>, first: Timestamp, second: Timestamp)
    ensures Upsert(Upsert(table, rows, first), rows, second) == Upsert(table, rows, second)
  {
    var once := Upsert(table, rows, first);
    var twice := Upsert(once, rows, second);
    var direct := Upsert(table, rows, second);
    if BatchValid(rows) {
      assert twice.Keys == direct.Keys;
      forall name | name in twice ensures twice[name] == direct[name] {
        if name !in BatchNames(rows) {
          assert name in table;
        }
      }
      assert twice == direct;
    }
  }

  /** A committed or discarded batch keeps every stored row within the
      CHECK constraints. */
  lemma UpsertKeepsChecks(table: TipsterTable, rows: seq<TipsterRow>, now: Timestamp)
    requires TableValid(table)
    ensures TableValid(Upsert(table, rows, now))
  {
    var r := Upsert(table, rows, now);
    if BatchValid(rows) {
      forall name | name in r ensures StoredChecks(r[name]) {
        if name in BatchNames(rows) {
          var row := LastFor(rows, name);
          var i :| 0 <= i < |rows| && rows[i] == row;
        }
      }
    }
  }

  /** One bad row anywhere discards the good rows around it. */
  lemma BadRowDiscardsBatch(table: TipsterTable, before: seq<TipsterRow>, bad: TipsterRow,
                            after: seq<TipsterRow>, now: Timestamp)
    requires !RowChecks(bad)
    ensures Upsert(table, before + [bad] + after, now) == table
  {
    assert (before + [bad] + after)[|before|] == bad;
  }
}

=== FILE: pipeline.dfy ===
/** The scheduled job: both listings are read, each candidate's profile
    is fetched and screened, the two qualified lists are concatenated, and
    the "tomorrow" tips are cross-referenced against the qualified names.
    The result replaces the published snapshot only when the run completes.
    `RunJob` is the pipeline the job's body describes; `RunJobAsWritten`
    is the job as it stands, whose tomorrow-listing fetch calls a parser
    method that does not exist. */
module Pipeline {
  import opened Wrappers
  import opened Seqs
  import opened Text
  import opened Scraper
  import opened Qualification

  /** The pages a run requests; `None` is a request that failed (the
      scraper catches the error and carries on with no data). The tomorrow
      listing and the tomorrow tips are two separate requests of the same
      "tomorrow" page, read with different selectors, so one can fail while
      the other succeeds. */
  datatype Web = Web(remainderListing: Option<seq<NameCell>>,
                     tomorrowListing: Option<seq<NameCell>>,
                     tomorrowTips: Option<seq<Table>>,
                     profilePages: string -> Option<ProfilePage>)

  /** The two module-level lists the dashboard reads. */
  datatype Snapshot = Snapshot(qualified: seq<Qualified>, tips: seq<Tip>)

  /** Exceptions that escape to the job's outer handler and end the run. */
  datatype JobError = ListingFailed(cause: ListingError) | MissingParserMethod

  /** `fetch_tipster_profile_data`: fetch the page, then parse it. */
  function ProfileLookup(pages: string -> Option<ProfilePage>, parse: NumberParser): (fetch: ProfileFetch)
    ensures forall url :: fetch(url).Some? <==> pages(url).Some?
    ensures forall url :: pages(url).Some? ==> fetch(url).value == ParseProfile(pages(url).value, parse)
  {
    url => match pages(url)
           case None => None
           case Some(page) => Some(ParseProfile(page, parse))
  }

  /** A listing fetch: a failed request gives no candidates; a parse that
      raises ends the run; otherwise the candidates are the parsed ones. */
  function FetchListing(page: Option<seq<NameCell>>): (r: Result<seq<Candidate>, JobError>)
    ensures r.Failure? <==> page.Some? && !HrefsPresent(page.value)
    ensures page.None? ==> r == Success([])
    ensures page.Some? && r.Success? ==> r.value == ParseListing(page.value).value
  {
    match page
    case None => Success([])
    case Some(cells) =>
      match ParseListing(cells)
      case Failure(e) => Failure(ListingFailed(e))
      case Success(cs) => Success(cs)
  }

  /** The tips of the "tomorrow" page, all its rows taken in order; a failed
      request gives none. */
  function FetchTips(page: Option<seq<Table>>): (tips: seq<Tip>)
    ensures page.None? ==> tips == []
    ensures page.Some? ==> tips == ProjectTipsOfTable(Rows(page.value))
    ensures forall t :: t in tips ==> IsTrimmedTip(t)
  {
    match page
    case None => []
    case Some(tables) =>
      ProjectTipsFlattens(tables);
      ProjectTips(tables)
  }

  /** Qualification and cross-reference once both candidate lists are known:
      every entry beats the threshold, and the tips kept are page tips, in
      page order, each by a qualified tipster. */
  function Finish(a: seq<Candidate>, b: seq<Candidate>, web: Web, parse: NumberParser): (s: Snapshot)
    ensures forall q :: q in s.qualified ==> q.winRate > MinWinRate
    ensures IsSubsequence(s.tips, FetchTips(web.tomorrowTips))
    ensures forall t :: t in s.tips ==> t.tipsterName in Names(s.qualified)
  {
    var fetch := ProfileLookup(web.profilePages, parse);
    var qualified := RemainderQualified(a, fetch) + TomorrowQualified(b, fetch);
    var tips := FetchTips(web.tomorrowTips);
    RemainderQualifiedExactly(a, fetch);
    assert forall t :: t in tips ==> Trim(t.tipsterName) == t.tipsterName by {
      forall t | t in tips ensures Trim(t.tipsterName) == t.tipsterName {
        TrimKeepsTrimmed(t.tipsterName);
      }
    }
    Snapshot(qualified, CrossReference(tips, Names(qualified)))
  }

  /** The run the job's body describes, with the tomorrow listing parsed
      like the remainder listing. */
  function RunJob(web: Web, parse: NumberParser): (r: Result<Snapshot, JobError>)
    ensures r.Failure? <==> FetchListing(web.remainderListing).Failure? || FetchListing(web.tomorrowListing).Failure?
    ensures r.Success? ==> forall q :: q in r.value.qualified ==> q.winRate > MinWinRate
    ensures r.Success? ==> IsSubsequence(r.value.tips, FetchTips(web.tomorrowTips))
    ensures r.Success? ==> forall t :: t in r.value.tips ==> t.tipsterName in Names(r.value.qualified)
  {
    match FetchListing(web.remainderListing)
    case Failure(e) => Failure(e)
    case Success(a) =>
      match FetchListing(web.tomorrowListing)
      case Failure(e) => Failure(e)
      case Success(b) => Success(Finish(a, b, web, parse))
  }

  /** The run as written: once the tomorrow listing has been fetched, the
      call to the missing parser method raises and the run ends. */
  function RunJobAsWritten(web: Web, parse: NumberParser): (r: Result<Snapshot, JobError>)
    ensures web.tomorrowListing.Some? ==> r.Failure?
  {
    match FetchListing(web.remainderListing)
    case Failure(e) => Failure(e)
    case Success(a) =>
      match web.tomorrowListing
      case Some(_) => Failure(MissingParserMethod)
      case None => Success(Finish(a, [], web, parse))
  }

  /** A completed run replaces both lists; a failed one leaves them as they were. */
  function Publish(prev: Snapshot, r: Result<Snapshot, JobError>): (next: Snapshot)
    ensures r.Failure? ==> next == prev
    ensures r.Success? ==> next == r.value
  {
    match r
    case Success(s) => s
    case Failure(_) => prev
  }

  /** `scheduled_job` as intended, acting on the published snapshot: a
      failed run keeps it, and a completed one publishes only entries above
      the threshold and only tips by published tipsters. */
  function ScheduledJob(prev: Snapshot, web: Web, parse: NumberParser): (next: Snapshot)
    ensures RunJob(web, parse).Failure? ==> next == prev
    ensures RunJob(web, parse).Success? ==> next == RunJob(web, parse).value
    ensures RunJob(web, parse).Success? ==> forall q :: q in next.qualified ==> q.winRate > MinWinRate
    ensures RunJob(web, parse).Success? ==> forall t :: t in next.tips ==> t.tipsterName in Names(next.qualified)
  {
    Publish(prev, RunJob(web, parse))
  }

  /** `scheduled_job` as written, acting on the published snapshot: a
      fetched tomorrow listing always leaves it unchanged, and only a failed
      tomorrow request lets the run behave as intended. */
  function ScheduledJobAsWritten(prev: Snapshot, web: Web, parse: NumberParser): (next: Snapshot)
    ensures web.tomorrowListing.Some? ==> next == prev
    ensures web.tomorrowListing.None? ==> next == ScheduledJob(prev, web, parse)
  {
    Publish(prev, RunJobAsWritten(web, parse))
  }

  // ---------------------------------------------------------------- properties

  /** A candidate passes exactly when its profile page was fetched, its win
      rate text is present and parses, and the rate is above 75; a rate of
      exactly 75 fails. */
  lemma PassesExactly(c: Candidate, pages: string -> Option<ProfilePage>, parse: NumberParser)
    ensures Passes(c, ProfileLookup(pages, parse)) <==>
      && pages(c.profileUrl).Some?
      && WinRate(pages(c.profileUrl).value.winRateText, parse).Some?
      && WinRate(pages(c.profileUrl).value.winRateText, parse).value > MinWinRate
    ensures pages(c.profileUrl).Some? && WinRate(pages(c.profileUrl).value.winRateText, parse) == Some(75.0)
      ==> !Passes(c, ProfileLookup(pages, parse))
  {
  }

  /** A profile page without the win-rate element, or whose text does not
      parse once percent signs are removed, disqualifies its candidate. */
  lemma MalformedWinRateExcluded(c: Candidate, pages: string -> Option<ProfilePage>, parse: NumberParser)
    requires pages(c.profileUrl).Some?
    requires var text := pages(c.profileUrl).value.winRateText;
      text.None? || parse(StripPercent(Trim(text.value))).None?
    ensures !Passes(c, ProfileLookup(pages, parse))
  {
  }

  /** After a completed run a name is qualified exactly when some candidate
      of either listing carrying it passes the threshold. */
  lemma {:induction false} JobQualifiedExactly(web: Web, parse: NumberParser)
    requires RunJob(web, parse).Success?
    ensures var a := FetchListing(web.remainderListing).value;
      var b := FetchListing(web.tomorrowListing).value;
      var fetch := ProfileLookup(web.profilePages, parse);
      forall n :: n in Names(RunJob(web, parse).value.qualified) <==>
        exists c: Candidate :: c in a + b && c.name == n && Passes(c, fetch)
  {
    var a := FetchListing(web.remainderListing).value;
    var b := FetchListing(web.tomorrowListing).value;
    var fetch := ProfileLookup(web.profilePages, parse);
    assert RunJob(web, parse).value.qualified == RemainderQualified(a, fetch) + TomorrowQualified(b, fetch);
    QualifiedNamesExactly(a, b, fetch);
  }

  /** A completed run publishes the qualified remainder listing, first
      occurrence of each name only, followed by the qualified tomorrow
      listing as it stands, and the page tips of exactly those names. */
  lemma JobComposition(web: Web, parse: NumberParser)
    requires RunJob(web, parse).Success?
    ensures var a := FetchListing(web.remainderListing).value;
      var b := FetchListing(web.tomorrowListing).value;
      var fetch := ProfileLookup(web.profilePages, parse);
      var s := RunJob(web, parse).value;
      s.qualified == RemainderQualified(a, fetch) + TomorrowQualified(b, fetch) &&
      s.tips == CrossReference(FetchTips(web.tomorrowTips), Names(s.qualified))
  {
  }

  /** After a completed run a page tip is published exactly when its tipster
      is qualified; `RunJob` states that the published tips keep page order. */
  lemma JobTipsExactly(web: Web, parse: NumberParser)
    requires RunJob(web, parse).Success?
    ensures var s := RunJob(web, parse).value;
      forall t :: t in s.tips <==> t in FetchTips(web.tomorrowTips) && t.tipsterName in Names(s.qualified)
  {
    var s := RunJob(web, parse).value;
    forall t | t in FetchTips(web.tomorrowTips) ensures Trim(t.tipsterName) == t.tipsterName {
      TrimKeepsTrimmed(t.tipsterName);
    }
  }

  /** The two lists are concatenated without deduplication: a name that
      passes in both listings is published twice. */
  lemma NameInBothListsAppearsTwice(web: Web, parse: NumberParser, ca: Candidate, cb: Candidate)
    requires RunJob(web, parse).Success?
    requires ca in FetchListing(web.remainderListing).value
    requires cb in FetchListing(web.tomorrowListing).value
    requires ca.name == cb.name
    requires Passes(ca, ProfileLookup(web.profilePages, parse)) && Passes(cb, ProfileLookup(web.profilePages, parse))
    ensures var qs := RunJob(web, parse).value.qualified;
      exists i, j :: 0 <= i < j < |qs| && qs[i].name == ca.name && qs[j].name == ca.name
  {
    var a := FetchListing(web.remainderListing).value;
    var b := FetchListing(web.tomorrowListing).value;
    var fetch := ProfileLookup(web.profilePages, parse);
    assert RunJob(web, parse).value.qualified == RemainderQualified(a, fetch) + TomorrowQualified(b, fetch);
    ConcatenationRepeats(a, b, fetch, ca, cb);
  }

  /** The defect: whenever the tomorrow listing is fetched, the run as
      written publishes nothing. */
  lemma AsWrittenDiscardsRun(prev: Snapshot, web: Web, parse: NumberParser)
    requires web.tomorrowListing.Some?
    ensures ScheduledJobAsWritten(prev, web, parse) == prev
  {
  }

  /** Only when that fetch fails does the run as written match the intended one. */
  lemma AsWrittenAgreesWhenTomorrowFails(web: Web, parse: NumberParser)
    requires web.tomorrowListing.None?
    ensures RunJobAsWritten(web, parse) == RunJob(web, parse)
  {
  }

  /** A concrete input on which the two differ: an empty tomorrow listing
      that was fetched. */
  lemma AsWrittenDiffers(prev: Snapshot, parse: NumberParser)
    requires prev != Snapshot([], [])
    ensures var web := Web(None, Some([]), None, (url: string) => None);
      && ScheduledJob(prev, web, parse) == Snapshot([], [])
      && ScheduledJobAsWritten(prev, web, parse) == prev
  {
    var web := Web(None, Some([]), None, (url: string) => None);
    assert RemainderQualified([], ProfileLookup(web.profilePages, parse)) == [];
    assert TomorrowQualified([], ProfileLookup(web.profilePages, parse)) == [];
  }

  // ---------------------------------------------------------------- worked examples

  /** A rate text made of a number and a percent sign reads as that number. */
  lemma PercentRate(digits: string, v: real, parse: NumberParser)
    requires '%' !in digits && IsTrimmed(digits + "%") && parse(digits) == Some(v)
    ensures WinRate(Some(digits + "%"), parse) == Some(v)
  {
    TrimKeepsTrimmed(digits + "%");
    FilterAppend(NotPercent, digits, "%");
    FilterKeepsAll(NotPercent, digits);
    assert "%" == ['%'];
    FilterDrops(NotPercent, '%');
    assert StripPercent(digits + "%") == digits;
  }
}

=== FILE: qualification.dfy ===
/** The qualification filter and the tip cross-reference of the scheduled
    job: each candidate's profile is fetched and its win rate compared with
    the threshold; the remainder list is deduplicated by name, the
    tomorrow list is not; tips are kept when their tipster qualified. */
module Qualification {
  import opened Wrappers
  import opened Seqs
  import opened Text
  import opened Scraper

  /** `MIN_WIN_RATE`; a candidate needs a strictly greater win rate. */
  const MinWinRate: real := 75.0

  /** `fetch_tipster_profile_data`: the parsed profile behind a URL, or
      `None` when the request fails. */
  type ProfileFetch = string -> Option<Profile>

  datatype Qualified = Qualified(name: string, winRate: real, profileUrl: string,
                                 upcomingMatches: seq<Match>)

  function QName(q: Qualified): string {
    q.name
  }

  /** The names of a list of qualified tipsters. */
  function Names(qs: seq<Qualified>): set<string> {
    KeySet(QName, qs)
  }

  /** The fetch succeeded, the win rate is present, and it beats the
      threshold: a failed fetch, a missing rate and a rate of exactly 75
      all fail. */
  predicate Passes(c: Candidate, fetch: ProfileFetch): (ok: bool)
    ensures fetch(c.profileUrl).None? ==> !ok
    ensures fetch(c.profileUrl).Some? && fetch(c.profileUrl).value.winRate.None? ==> !ok
    ensures fetch(c.profileUrl).Some? && fetch(c.profileUrl).value.winRate == Some(MinWinRate) ==> !ok
    ensures ok ==> fetch(c.profileUrl).value.winRate.value > MinWinRate
  {
    var p := fetch(c.profileUrl);
    p.Some? && p.value.winRate.Some? && p.value.winRate.value > MinWinRate
  }

  /** A candidate that passes, with its profile's rate and upcoming matches. */
  function Screen(c: Candidate, fetch: ProfileFetch): (q: Option<Qualified>)
    ensures q.Some? <==> Passes(c, fetch)
    ensures q.Some? ==>
              && q.value.name == c.name && q.value.profileUrl == c.profileUrl
              && q.value.winRate > MinWinRate
              && Some(q.value.winRate) == fetch(c.profileUrl).value.winRate
              && q.value.upcomingMatches == fetch(c.profileUrl).value.upcomingMatches
  {
    match fetch(c.profileUrl)
    case None => None
    case Some(p) =>
      if p.winRate.Some? && p.winRate.value > MinWinRate
      then Some(Qualified(c.name, p.winRate.value, c.profileUrl, p.upcomingMatches))
      else None
  }

  /** The candidates that pass, in listing order, duplicates included. */
  function Screened(cands: seq<Candidate>, fetch: ProfileFetch): seq<Qualified> {
    Collect(c => Screen(c, fetch), cands)
  }

  /** What passing the screen means for each entry, and that no passing
      candidate is missed. */
  lemma ScreenedMembers(cands: seq<Candidate>, fetch: ProfileFetch)
    ensures forall q :: q in Screened(cands, fetch) ==>
              && q.winRate > MinWinRate
              && exists c :: c in cands && Passes(c, fetch) && Screen(c, fetch) == Some(q)
    ensures forall c :: c in cands && Passes(c, fetch) ==> Screen(c, fetch).value in Screened(cands, fetch)
  {
  }

  lemma ScreenedAppend(a: seq<Candidate>, b: seq<Candidate>, fetch: ProfileFetch)
    ensures Screened(a + b, fetch) == Screened(a, fetch) + Screened(b, fetch)
  {
    CollectAppend(c => Screen(c, fetch), a, b);
  }

  /** The remainder list: every passing candidate, first occurrence of each
      name only, each with its upcoming matches. */
  function RemainderQualified(cands: seq<Candidate>, fetch: ProfileFetch): (qs: seq<Qualified>)
    ensures |qs| <= |cands|
    ensures forall i, j :: 0 <= i < j < |qs| ==> qs[i].name != qs[j].name
  {
    DedupBy(QName, Screened(cands, fetch), {})
  }

  /** A remainder entry exists only for a candidate whose profile was
      fetched and whose win rate is present and above the threshold; every
      such candidate's name is present, and no name twice. */
  lemma RemainderQualifiedExactly(cands: seq<Candidate>, fetch: ProfileFetch)
    ensures var qs := RemainderQualified(cands, fetch);
      && (forall i, j :: 0 <= i < j < |qs| ==> qs[i].name != qs[j].name)
      && (forall q :: q in qs ==>
            && q.winRate > MinWinRate
            && exists c :: c in cands && Passes(c, fetch) && Screen(c, fetch) == Some(q))
      && (forall c :: c in cands && Passes(c, fetch) ==> c.name in Names(qs))
  {
    var s := Screened(cands, fetch);
    var qs := DedupBy(QName, s, {});
    ScreenedMembers(cands, fetch);
    assert forall i, j :: 0 <= i < j < |qs| ==> QName(qs[i]) != QName(qs[j]);
    forall c | c in cands && Passes(c, fetch) ensures c.name in Names(qs) {
      var q := Screen(c, fetch).value;
      assert q in s;
      assert QName(q) in KeySet(QName, s);
    }
  }

  /** The loop of the scheduled job over the remainder list, with its set of
      names already added. */
  method QualifyRemainder(cands: seq<Candidate>, fetch: ProfileFetch)
    returns (qualified: seq<Qualified>)
    ensures qualified == RemainderQualified(cands, fetch)
  {
    qualified := [];
    var added: set<string> := {};
    var i := 0;
    assert cands[i..] == cands;
    assert Names(qualified) == {};
    while i < |cands|
      invariant 0 <= i <= |cands|
      invariant added == Names(qualified)
      invariant qualified + DedupBy(QName, Screened(cands[i..], fetch), added)
             == RemainderQualified(cands, fetch)
      decreases |cands| - i
    {
      var screened := Screen(cands[i], fetch);
      if screened.Some? && screened.value.name !in added {
        RemainderLoopAdd(cands, i, qualified, fetch);
        qualified := qualified + [screened.value];
        added := added + {screened.value.name};
      } else {
        RemainderLoopSkip(cands, i, qualified, fetch);
      }
      i := i + 1;
    }
    assert cands[i..] == [];
    assert Screened([], fetch) == [];
    assert DedupBy(QName, Screened(cands[i..], fetch), added) == [];
    assert qualified + [] == qualified;
  }

  /** An iteration that adds nothing keeps the loop invariant. */
  lemma RemainderLoopSkip(cands: seq<Candidate>, i: nat, qualified: seq<Qualified>, fetch: ProfileFetch)
    requires i < |cands|
    requires qualified + DedupBy(QName, Screened(cands[i..], fetch), Names(qualified))
          == RemainderQualified(cands, fetch)
    requires Screen(cands[i], fetch).None? || Screen(cands[i], fetch).value.name in Names(qualified)
    ensures qualified + DedupBy(QName, Screened(cands[i + 1..], fetch), Names(qualified))
         == RemainderQualified(cands, fetch)
  {
    RemainderStep(cands, i, fetch);
    var sq := Screen(cands[i], fetch);
    if sq.Some? {
      DedupSkipStep(QName, qualified, sq.value, Screened(cands[i + 1..], fetch));
    }
  }

  /** An iteration that adds a new name keeps the loop invariant. */
  lemma RemainderLoopAdd(cands: seq<Candidate>, i: nat, qualified: seq<Qualified>, fetch: ProfileFetch)
    requires i < |cands|
    requires qualified + DedupBy(QName, Screened(cands[i..], fetch), Names(qualified))
          == RemainderQualified(cands, fetch)
    requires Screen(cands[i], fetch).Some? && Screen(cands[i], fetch).value.name !in Names(qualified)
    ensures Names(qualified + [Screen(cands[i], fetch).value])
         == Names(qualified) + {Screen(cands[i], fetch).value.name}
    ensures (qualified + [Screen(cands[i], fetch).value])
          + DedupBy(QName, Screened(cands[i + 1..], fetch), Names(qualified) + {Screen(cands[i], fetch).value.name})
         == RemainderQualified(cands, fetch)
  {
    RemainderStep(cands, i, fetch);
    DedupKeepStep(QName, qualified, Screen(cands[i], fetch).value, Screened(cands[i + 1..], fetch));
  }

  lemma RemainderStep(cands: seq<Candidate>, i: nat, fetch: ProfileFetch)
    requires i < |cands|
    ensures Screened(cands[i..], fetch)
         == match Screen(cands[i], fetch)
            case None => Screened(cands[i + 1..], fetch)
            case Some(q) => [q] + Screened(cands[i + 1..], fetch)
  {
    assert cands[i..] == [cands[i]] + cands[i + 1..];
    ScreenedAppend([cands[i]], cands[i + 1..], fetch);
    ScreenedSingle(cands[i], fetch);
  }

  lemma ScreenedSingle(c: Candidate, fetch: ProfileFetch)
    ensures Screened([c], fetch) == match Screen(c, fetch) case None => [] case Some(q) => [q]
  {
    assert [c][1..] == [];
  }

  /** The first passing occurrence of a name is the one kept, and nothing
      else with that name is. */
  lemma RemainderFirstWins(cands: seq<Candidate>, i: nat, fetch: ProfileFetch)
    requires i < |cands| && Passes(cands[i], fetch)
    requires forall j :: 0 <= j < i && Passes(cands[j], fetch) ==> cands[j].name != cands[i].name
    ensures Screen(cands[i], fetch).value in RemainderQualified(cands, fetch)
    ensures forall q :: (q in RemainderQualified(cands, fetch) && q.name == cands[i].name)
              ==> q == Screen(cands[i], fetch).value
  {
    var x := Screen(cands[i], fetch).value;
    var p := Screened(cands[..i], fetch);
    var q := Screened(cands[i + 1..], fetch);
    ScreenedSplit(cands, i, fetch);
    ScreenedNamesBefore(cands, i, fetch);
    DedupFirstWins(QName, p, x, q, {});
  }

  /** Screening splits around any one candidate. */
  lemma ScreenedSplit(cands: seq<Candidate>, i: nat, fetch: ProfileFetch)
    requires i < |cands| && Passes(cands[i], fetch)
    ensures Screened(cands, fetch)
         == Screened(cands[..i], fetch) + [Screen(cands[i], fetch).value] + Screened(cands[i + 1..], fetch)
  {
    assert cands == cands[..i] + [cands[i]] + cands[i + 1..];
    ScreenedAppend(cands[..i] + [cands[i]], cands[i + 1..], fetch);
    ScreenedAppend(cands[..i], [cands[i]], fetch);
    ScreenedSingle(cands[i], fetch);
  }

  /** No candidate before the first passing one with a name yields that name. */
  lemma ScreenedNamesBefore(cands: seq<Candidate>, i: nat, fetch: ProfileFetch)
    requires i < |cands|
    requires forall j :: 0 <= j < i && Passes(cands[j], fetch) ==> cands[j].name != cands[i].name
    ensures cands[i].name !in KeySet(QName, Screened(cands[..i], fetch))
  {
    var p := Screened(cands[..i], fetch);
    forall y | y in p ensures QName(y) != cands[i].name {
      var c :| c in cands[..i] && Screen(c, fetch) == Some(y);
      var j :| 0 <= j < i && cands[..i][j] == c;
    }
  }

  /** A passing candidate whose name was already taken adds nothing and
      changes no earlier entry. */
  lemma RemainderDropsLaterDuplicate(cands: seq<Candidate>, c: Candidate, fetch: ProfileFetch)
    requires Passes(c, fetch)
    requires c.name in Names(RemainderQualified(cands, fetch))
    ensures RemainderQualified(cands + [c], fetch) == RemainderQualified(cands, fetch)
  {
    var s := Screened(cands, fetch);
    var x := Screen(c, fetch).value;
    ScreenedAppend(cands, [c], fetch);
    assert Screened([c], fetch) == [x];
    DedupDropsLaterDuplicate(QName, s, x, {});
  }

  /** A passing candidate of the tomorrow list, without its upcoming matches. */
  function ScreenTomorrow(c: Candidate, fetch: ProfileFetch): (q: Option<Qualified>)
    ensures q.Some? <==> Passes(c, fetch)
    ensures q.Some? ==> q.value == Screen(c, fetch).value.(upcomingMatches := [])
  {
    match Screen(c, fetch)
    case None => None
    case Some(q) => Some(q.(upcomingMatches := []))
  }

  /** The tomorrow list: every passing candidate, in listing order, with an
      empty match list; names are not deduplicated. */
  function TomorrowQualified(cands: seq<Candidate>, fetch: ProfileFetch): (qs: seq<Qualified>)
    ensures |qs| <= |cands|
    ensures forall q :: q in qs ==>
              && q.upcomingMatches == [] && q.winRate > MinWinRate
              && exists c :: c in cands && Passes(c, fetch) && ScreenTomorrow(c, fetch) == Some(q)
    ensures forall c :: c in cands && Passes(c, fetch) ==> ScreenTomorrow(c, fetch).value in qs
  {
    Collect(c => ScreenTomorrow(c, fetch), cands)
  }

  /** Each tomorrow candidate is handled on its own: a candidate listed
      twice that passes qualifies twice. */
  lemma TomorrowKeepsDuplicates(a: seq<Candidate>, b: seq<Candidate>, fetch: ProfileFetch)
    ensures TomorrowQualified(a + b, fetch) == TomorrowQualified(a, fetch) + TomorrowQualified(b, fetch)
    ensures forall c :: Passes(c, fetch) ==> |TomorrowQualified([c, c], fetch)| == 2
  {
    CollectAppend(c => ScreenTomorrow(c, fetch), a, b);
    forall c | Passes(c, fetch) ensures |TomorrowQualified([c, c], fetch)| == 2 {
      assert [c, c][1..] == [c];
      assert [c][1..] == [];
    }
  }

  /** The remainder and tomorrow lists are concatenated as they are: a name
      passing in both occurs twice. */
  lemma ConcatenationRepeats(a: seq<Candidate>, b: seq<Candidate>, fetch: ProfileFetch, ca: Candidate, cb: Candidate)
    requires ca in a && cb in b && ca.name == cb.name
    requires Passes(ca, fetch) && Passes(cb, fetch)
    ensures var qs := RemainderQualified(a, fetch) + TomorrowQualified(b, fetch);
      exists i, j :: 0 <= i < j < |qs| && qs[i].name == ca.name && qs[j].name == ca.name
  {
    RemainderHasName(a, fetch, ca);
    TomorrowHasName(b, fetch, cb);
    NameTwice(RemainderQualified(a, fetch), TomorrowQualified(b, fetch), ca.name);
  }

  lemma NameTwice(p: seq<Qualified>, q: seq<Qualified>, n: string)
    requires exists i :: 0 <= i < |p| && p[i].name == n
    requires exists j :: 0 <= j < |q| && q[j].name == n
    ensures exists i, j :: 0 <= i < j < |p + q| && (p + q)[i].name == n && (p + q)[j].name == n
  {
    var i :| 0 <= i < |p| && p[i].name == n;
    var j :| 0 <= j < |q| && q[j].name == n;
    assert (p + q)[i] == p[i] && (p + q)[|p| + j] == q[j];
  }

  lemma RemainderHasName(a: seq<Candidate>, fetch: ProfileFetch, c: Candidate)
    requires c in a && Passes(c, fetch)
    ensures exists i :: 0 <= i < |RemainderQualified(a, fetch)| && RemainderQualified(a, fetch)[i].name == c.name
  {
    var ra := RemainderQualified(a, fetch);
    assert c.name in Names(ra) by {
      RemainderQualifiedExactly(a, fetch);
    }
    var q :| q in ra && QName(q) == c.name;
  }

  lemma TomorrowHasName(b: seq<Candidate>, fetch: ProfileFetch, c: Candidate)
    requires c in b && Passes(c, fetch)
    ensures exists j :: 0 <= j < |TomorrowQualified(b, fetch)| && TomorrowQualified(b, fetch)[j].name == c.name
  {
    var q := ScreenTomorrow(c, fetch).value;
    assert q in TomorrowQualified(b, fetch);
  }

  /** A name is in the combined list exactly when some candidate of either
      listing carrying it passes the threshold. */
  lemma {:induction false} QualifiedNamesExactly(a: seq<Candidate>, b: seq<Candidate>, fetch: ProfileFetch)
    ensures forall n :: n in Names(RemainderQualified(a, fetch) + TomorrowQualified(b, fetch)) <==>
      exists c: Candidate :: c in a + b && c.name == n && Passes(c, fetch)
  {
    var ra := RemainderQualified(a, fetch);
    var rb := TomorrowQualified(b, fetch);
    var qs := ra + rb;
    RemainderQualifiedExactly(a, fetch);
    forall n | n in Names(qs) ensures exists c: Candidate :: c in a + b && c.name == n && Passes(c, fetch) {
      var q :| q in qs && QName(q) == n;
      if q in ra {
        var c :| c in a && Passes(c, fetch) && Screen(c, fetch) == Some(q);
        assert c in a + b;
      } else {
        assert q in rb;
        var c :| c in b && Passes(c, fetch) && ScreenTomorrow(c, fetch) == Some(q);
        assert c in a + b;
      }
    }
    forall n | exists c: Candidate :: c in a + b && c.name == n && Passes(c, fetch) ensures n in Names(qs) {
      var c: Candidate :| c in a + b && c.name == n && Passes(c, fetch);
      if c in a {
        var q :| q in ra && QName(q) == n;
        assert q in qs;
      } else {
        var q := ScreenTomorrow(c, fetch).value;
        assert q in rb;
        assert q in qs;
        assert QName(q) == n;
      }
    }
  }

  /** The tips whose stripped tipster name is one of `names`, in order. */
  function CrossReference(tips: seq<Tip>, names: set<string>): (kept: seq<Tip>)
    ensures IsSubsequence(kept, tips)
    ensures forall t :: t in kept <==> t in tips && Trim(t.tipsterName) in names
    ensures forall t :: multiset(kept)[t] == if Trim(t.tipsterName) in names then multiset(tips)[t] else 0
  {
    Filter(ByTipsterIn(names), tips)
  }

  /** The test the cross-reference applies to each tip. */
  function ByTipsterIn(names: set<string>): Tip -> bool {
    (t: Tip) => Trim(t.tipsterName) in names
  }

  /** Tips read from the page are already stripped, so the cross-reference
      compares their names as they stand. */
  lemma CrossReferenceOfProjectedTips(tables: seq<Table>, names: set<string>)
    ensures forall t :: t in CrossReference(ProjectTips(tables), names) <==>
      t in ProjectTips(tables) && t.tipsterName in names
  {
    forall t | t in ProjectTips(tables) ensures Trim(t.tipsterName) == t.tipsterName {
      TrimKeepsTrimmed(t.tipsterName);
    }
  }
}

=== FILE: scraper.dfy ===
/** The extraction half of `TipsterScraper`: listing pages become
    candidates, profile pages become a win rate and upcoming matches, and
    the "tomorrow" page becomes tips. The HTML parser is abstracted away:
    a table is given as its rows, each row as the raw texts of its cells,
    and a listing as the name cells with the anchor found in each. */
module Scraper {
  import opened Wrappers
  import opened Seqs
  import opened Text

  const ScrapeUrlBase: string := "https://www.typersi.com"

  /** Rows with fewer cells than this are skipped. */
  const MinCells: nat := 9

  /** The raw texts of the `td` cells of one `tbody tr`. */
  type Row = seq<string>
  type Table = seq<Row>

  datatype Match = Match(day: string, time: string, bookmaker: string, matchLabel: string,
                         tipLabel: string, stake: string, odds: string, score: string)

  datatype Tip = Tip(tipsterName: string, time: string, bookmaker: string, matchLabel: string,
                     tipLabel: string, odds: string, score: string)

  datatype Candidate = Candidate(name: string, profileUrl: string)

  /** The `a.link-underline-warning` anchor of a name cell; the `href`
      attribute may be missing from the markup. */
  datatype Anchor = Anchor(text: string, href: Option<string>)

  /** One `td.fw-bold` cell of a listing, with the first matching anchor in it. */
  datatype NameCell = NameCell(anchor: Option<Anchor>)

  /** Looking up the `href` of an anchor that has none raises `KeyError`. */
  datatype ListingError = MissingHref

  /** What the profile page offers: the text of the win-rate `span`, and
      the rows of the matches table, each when the selector finds it. */
  datatype ProfilePage = ProfilePage(winRateText: Option<string>, matchTable: Option<Table>)

  datatype Profile = Profile(winRate: Option<real>, upcomingMatches: seq<Match>)

  /** Python's `float()` on a string: `None` stands for `ValueError`. */
  type NumberParser = string -> Option<real>

  // ---------------------------------------------------------------- rows

  predicate IsTrimmedMatch(m: Match) {
    IsTrimmed(m.day) && IsTrimmed(m.time) && IsTrimmed(m.bookmaker) && IsTrimmed(m.matchLabel)
    && IsTrimmed(m.tipLabel) && IsTrimmed(m.stake) && IsTrimmed(m.odds) && IsTrimmed(m.score)
  }

  predicate IsTrimmedTip(t: Tip) {
    IsTrimmed(t.tipsterName) && IsTrimmed(t.time) && IsTrimmed(t.bookmaker)
    && IsTrimmed(t.matchLabel) && IsTrimmed(t.tipLabel) && IsTrimmed(t.odds) && IsTrimmed(t.score)
  }

  /** A profile-table row as a match: cells 1 to 8, stripped; cell 0 and any
      cell after 8 are ignored. */
  function MatchOf(row: Row): (m: Option<Match>)
    ensures m.Some? <==> |row| >= MinCells
    ensures m.Some? ==> IsTrimmedMatch(m.value)
  {
    if |row| >= MinCells then
      Some(Match(Trim(row[1]), Trim(row[2]), Trim(row[3]), Trim(row[4]),
                 Trim(row[5]), Trim(row[6]), Trim(row[7]), Trim(row[8])))
    else None
  }

  /** A "tomorrow" row as a tip: cells 1 to 5, 7 and 8, stripped; the stake in
      cell 6 is dropped. */
  function TipOf(row: Row): (t: Option<Tip>)
    ensures t.Some? <==> |row| >= MinCells
    ensures t.Some? ==> IsTrimmedTip(t.value)
  {
    if |row| >= MinCells then
      Some(Tip(Trim(row[1]), Trim(row[2]), Trim(row[3]), Trim(row[4]),
               Trim(row[5]), Trim(row[7]), Trim(row[8])))
    else None
  }

  /** The row a match is read back from, with `lead` in the ignored cell 0. */
  function MatchCells(m: Match, lead: string): (row: Row)
    ensures |row| == MinCells
  {
    [lead, m.day, m.time, m.bookmaker, m.matchLabel, m.tipLabel, m.stake, m.odds, m.score]
  }

  /** The row a tip is read back from, with `lead` in cell 0 and `stake` in cell 6. */
  function TipCells(t: Tip, lead: string, stake: string): (row: Row)
    ensures |row| == MinCells
  {
    [lead, t.tipsterName, t.time, t.bookmaker, t.matchLabel, t.tipLabel, stake, t.odds, t.score]
  }

  /** Reading a match back from its row gives the match, whatever cell 0 holds. */
  lemma MatchRoundTrip(m: Match, lead: string)
    requires IsTrimmedMatch(m)
    ensures MatchOf(MatchCells(m, lead)) == Some(m)
  {
    var row := MatchCells(m, lead);
    TrimKeepsTrimmed(m.day); TrimKeepsTrimmed(m.time); TrimKeepsTrimmed(m.bookmaker);
    TrimKeepsTrimmed(m.matchLabel); TrimKeepsTrimmed(m.tipLabel); TrimKeepsTrimmed(m.stake);
    TrimKeepsTrimmed(m.odds); TrimKeepsTrimmed(m.score);
  }

  /** Reading a tip back from its row gives the tip, whatever cells 0 and 6 hold. */
  lemma TipRoundTrip(t: Tip, lead: string, stake: string)
    requires IsTrimmedTip(t)
    ensures TipOf(TipCells(t, lead, stake)) == Some(t)
  {
    TrimKeepsTrimmed(t.tipsterName); TrimKeepsTrimmed(t.time); TrimKeepsTrimmed(t.bookmaker);
    TrimKeepsTrimmed(t.matchLabel); TrimKeepsTrimmed(t.tipLabel);
    TrimKeepsTrimmed(t.odds); TrimKeepsTrimmed(t.score);
  }

  /** The matches of a profile table, in row order. */
  function ProjectMatches(rows: Table): (ms: seq<Match>)
    ensures |ms| <= |rows|
    ensures forall m :: m in ms ==> exists row :: row in rows && |row| >= MinCells && MatchOf(row) == Some(m)
    ensures forall row :: row in rows && |row| >= MinCells ==> MatchOf(row).value in ms
  {
    Collect(MatchOf, rows)
  }

  /** Every cell of the row, stripped. */
  function StripCells(row: Row): Row {
    seq(|row|, i requires 0 <= i < |row| => Trim(row[i]))
  }

  /** Each field of the match is the stripped text of its cell: stripping
      the cells beforehand changes nothing. */
  lemma MatchOfStripsCells(row: Row)
    ensures MatchOf(row) == MatchOf(StripCells(row))
  {
    if |row| >= MinCells {
      TrimIdempotent(row[1]); TrimIdempotent(row[2]); TrimIdempotent(row[3]); TrimIdempotent(row[4]);
      TrimIdempotent(row[5]); TrimIdempotent(row[6]); TrimIdempotent(row[7]); TrimIdempotent(row[8]);
    }
  }

  /** Each field of the tip is the stripped text of its cell: stripping the
      cells beforehand changes nothing. */
  lemma TipOfStripsCells(row: Row)
    ensures TipOf(row) == TipOf(StripCells(row))
  {
    if |row| >= MinCells {
      TrimIdempotent(row[1]); TrimIdempotent(row[2]); TrimIdempotent(row[3]); TrimIdempotent(row[4]);
      TrimIdempotent(row[5]); TrimIdempotent(row[7]); TrimIdempotent(row[8]);
    }
  }

  /** Cells past the ninth are never read. */
  lemma MatchOfIgnoresTail(row: Row)
    requires |row| >= MinCells
    ensures MatchOf(row) == MatchOf(row[..MinCells])
  {
  }

  function CellsOf(lead: string): Match -> Row {
    m => MatchCells(m, lead)
  }

  /** The matches of two runs of rows come out one run after the other:
      rows keep their order, whatever their cells hold. */
  lemma ProjectMatchesAppend(a: Table, b: Table)
    ensures ProjectMatches(a + b) == ProjectMatches(a) + ProjectMatches(b)
  {
    CollectAppend(MatchOf, a, b);
  }

  /** A table rebuilt from trimmed matches projects back onto the same matches. */
  lemma ProjectMatchesRoundTrip(ms: seq<Match>, lead: string)
    requires forall i :: 0 <= i < |ms| ==> IsTrimmedMatch(ms[i])
    ensures ProjectMatches(Map(CellsOf(lead), ms)) == ms
  {
    forall i | 0 <= i < |ms| ensures MatchOf(CellsOf(lead)(ms[i])) == Some(ms[i]) {
      MatchRoundTrip(ms[i], lead);
    }
    CollectUndoesMap(MatchOf, CellsOf(lead), ms);
  }

  /** A row with fewer than nine cells yields no match, wherever it stands. */
  lemma ShortRowSkipped(before: Table, row: Row, after: Table)
    requires |row| < MinCells
    ensures ProjectMatches(before + [row] + after) == ProjectMatches(before + after)
  {
    CollectSkips(MatchOf, before, row, after);
  }

  /** A row with fewer than nine cells yields no tip, wherever it stands. */
  lemma ShortTipRowSkipped(before: Table, row: Row, after: Table)
    requires |row| < MinCells
    ensures ProjectTipsOfTable(before + [row] + after) == ProjectTipsOfTable(before + after)
  {
    CollectSkips(TipOf, before, row, after);
  }

  /** The tips of one table, in row order. */
  function ProjectTipsOfTable(rows: Table): (ts: seq<Tip>)
    ensures |ts| <= |rows|
    ensures forall t :: t in ts ==> IsTrimmedTip(t)
    ensures forall t :: t in ts ==> exists row :: row in rows && |row| >= MinCells && TipOf(row) == Some(t)
    ensures forall row :: row in rows && |row| >= MinCells ==> TipOf(row).value in ts
  {
    Collect(TipOf, rows)
  }

  /** Cells past the ninth, the unused ones included, are never read. */
  lemma TipOfIgnoresTail(row: Row)
    requires |row| >= MinCells
    ensures TipOf(row) == TipOf(row[..MinCells])
  {
  }

  /** The tips of every table on the "tomorrow" page, table after table. */
  function ProjectTips(tables: seq<Table>): (ts: seq<Tip>)
    ensures forall t :: t in ts ==> IsTrimmedTip(t)
    ensures forall t :: t in ts <==> SomeHolds(HoldsTip(t), tables)
  {
    if |tables| == 0 then []
    else
      var rest := ProjectTips(tables[1..]);
      forall t ensures SomeHolds(HoldsTip(t), tables) <==>
        t in ProjectTipsOfTable(tables[0]) || SomeHolds(HoldsTip(t), tables[1..])
      {
        SomeHoldsCons(HoldsTip(t), tables);
      }
      ProjectTipsOfTable(tables[0]) + rest
  }

  /** The table has a full row the tip is read from. */
  function HoldsTip(t: Tip): Table -> bool {
    table => t in ProjectTipsOfTable(table)
  }

  /** All rows of all tables, table after table. */
  function Rows(tables: seq<Table>): (rows: Table)
    ensures forall t :: t in tables ==> forall row :: row in t ==> row in rows
  {
    if |tables| == 0 then []
    else
      assert forall t :: t in tables ==> t == tables[0] || t in tables[1..];
      tables[0] + Rows(tables[1..])
  }

  /** Projecting table by table is projecting the concatenation of all rows:
      tips keep their order within and across tables. */
  lemma {:induction false} ProjectTipsFlattens(tables: seq<Table>)
    ensures ProjectTips(tables) == ProjectTipsOfTable(Rows(tables))
  {
    if |tables| > 0 {
      ProjectTipsFlattens(tables[1..]);
      CollectAppend(TipOf, tables[0], Rows(tables[1..]));
    }
  }

  /** Tips from two groups of tables come out one group after the other. */
  lemma {:induction false} ProjectTipsAppend(a: seq<Table>, b: seq<Table>)
    ensures ProjectTips(a + b) == ProjectTips(a) + ProjectTips(b)
  {
    if |a| == 0 {
      assert a + b == b;
    } else {
      assert (a + b)[1..] == a[1..] + b;
      ProjectTipsAppend(a[1..], b);
    }
  }

  // ---------------------------------------------------------------- listings

  /** The candidate an anchor names: its stripped text, and the site base
      followed by its `href`. */
  function CandidateOf(a: Anchor): (c: Candidate)
    requires a.href.Some?
    ensures IsTrimmed(c.name) && |c.name| <= |a.text|
    ensures ScrapeUrlBase <= c.profileUrl && c.profileUrl[|ScrapeUrlBase|..] == a.href.value
  {
    Candidate(Trim(a.text), ScrapeUrlBase + a.href.value)
  }

  /** Every anchored name cell carries an `href`. */
  predicate HrefsPresent(cells: seq<NameCell>) {
    forall i :: 0 <= i < |cells| && cells[i].anchor.Some? ==> cells[i].anchor.value.href.Some?
  }

  /** The candidate is the one named by some anchored cell of the listing. */
  predicate ListedIn(c: Candidate, cells: seq<NameCell>) {
    exists i :: 0 <= i < |cells| && cells[i].anchor.Some? && cells[i].anchor.value.href.Some? &&
      CandidateOf(cells[i].anchor.value) == c
  }

  lemma ListedInRest(c: Candidate, cells: seq<NameCell>)
    requires |cells| > 0 && ListedIn(c, cells[1..])
    ensures ListedIn(c, cells)
  {
    var j :| 0 <= j < |cells| - 1 && cells[1..][j].anchor.Some? && cells[1..][j].anchor.value.href.Some? &&
      CandidateOf(cells[1..][j].anchor.value) == c;
    assert cells[j + 1] == cells[1..][j];
  }

  /** One candidate per name cell holding the anchor, in document order;
      cells without the anchor are skipped, and an anchor without `href`
      fails the whole listing. */
  function ParseListing(cells: seq<NameCell>): (r: Result<seq<Candidate>, ListingError>)
    ensures r.Success? <==> HrefsPresent(cells)
    ensures r.Success? ==> |r.value| <= |cells|
    ensures r.Success? ==> forall c :: c in r.value ==>
      IsTrimmed(c.name) && ScrapeUrlBase <= c.profileUrl
  {
    if |cells| == 0 then Success([])
    else
      var rest := ParseListing(cells[1..]);
      assert HrefsPresent(cells) <==>
        (cells[0].anchor.Some? ==> cells[0].anchor.value.href.Some?) && HrefsPresent(cells[1..]) by {
        assert forall i :: 1 <= i < |cells| ==> cells[i] == cells[1..][i - 1];
      }
      match cells[0].anchor
      case None => rest
      case Some(a) =>
        if a.href.None? then Failure(MissingHref)
        else if rest.Failure? then rest
        else Success([CandidateOf(a)] + rest.value)
  }

  /** A parsed listing holds the candidate of every anchored cell, and
      nothing else. */
  lemma {:induction false} ParseListingCandidates(cells: seq<NameCell>)
    requires ParseListing(cells).Success?
    ensures forall i :: 0 <= i < |cells| && cells[i].anchor.Some? ==>
      CandidateOf(cells[i].anchor.value) in ParseListing(cells).value
    ensures forall c :: c in ParseListing(cells).value ==> ListedIn(c, cells)
  {
    if |cells| > 0 {
      var rest := cells[1..];
      ParseListingCandidates(rest);
      assert forall i :: 1 <= i < |cells| ==> cells[i] == rest[i - 1];
      forall c | c in ParseListing(rest).value ensures ListedIn(c, cells) {
        ListedInRest(c, cells);
      }
    }
  }

  /** The name cell a candidate is read back from. */
  function CandidateCell(c: Candidate): NameCell
    requires ScrapeUrlBase <= c.profileUrl
  {
    NameCell(Some(Anchor(c.name, Some(c.profileUrl[|ScrapeUrlBase|..]))))
  }

  /** An anchor whose text is a name padded with whitespace names the
      candidate by the bare name. */
  lemma CandidateOfPadded(left: string, name: string, right: string, href: string)
    requires AllSpace(left) && AllSpace(right) && IsTrimmed(name)
    ensures CandidateOf(Anchor(left + name + right, Some(href))) == Candidate(name, ScrapeUrlBase + href)
  {
    TrimPadded(left, name, right);
  }

  /** A listing rebuilt from candidates with stripped names and site URLs
      parses back to the same candidates. */
  lemma {:induction false} ListingRoundTrip(cs: seq<Candidate>)
    requires forall i :: 0 <= i < |cs| ==> IsTrimmed(cs[i].name) && ScrapeUrlBase <= cs[i].profileUrl
    ensures ParseListing(seq(|cs|, i requires 0 <= i < |cs| => CandidateCell(cs[i]))) == Success(cs)
  {
    var cells := seq(|cs|, i requires 0 <= i < |cs| => CandidateCell(cs[i]));
    if |cs| > 0 {
      var c := cs[0];
      TrimKeepsTrimmed(c.name);
      assert ScrapeUrlBase + c.profileUrl[|ScrapeUrlBase|..] == c.profileUrl;
      assert cells[1..] == seq(|cs| - 1, i requires 0 <= i < |cs| - 1 => CandidateCell(cs[1..][i]));
      ListingRoundTrip(cs[1..]);
      assert cs == [c] + cs[1..];
    }
  }

  /** The candidates one name cell contributes: its anchor's, or none. */
  function CellCandidates(cell: NameCell): seq<Candidate>
    requires cell.anchor.Some? ==> cell.anchor.value.href.Some?
  {
    if cell.anchor.Some? then [CandidateOf(cell.anchor.value)] else []
  }

  /** A listing that parses parses cell by cell: its first cell is well
      formed, the rest parses, and the first cell's candidates come first. */
  lemma ParseListingUnfold(cells: seq<NameCell>)
    requires |cells| > 0 && ParseListing(cells).Success?
    ensures cells[0].anchor.Some? ==> cells[0].anchor.value.href.Some?
    ensures ParseListing(cells[1..]).Success?
    ensures ParseListing(cells).value == CellCandidates(cells[0]) + ParseListing(cells[1..]).value
  {
    if cells[0].anchor.None? {
      assert [] + ParseListing(cells[1..]).value == ParseListing(cells[1..]).value;
    }
  }

  /** Conversely, a well-formed first cell in front of a listing that
      parses gives a listing that parses, with that cell's candidates first. */
  lemma ParseListingFold(cells: seq<NameCell>)
    requires |cells| > 0 && (cells[0].anchor.Some? ==> cells[0].anchor.value.href.Some?)
    requires ParseListing(cells[1..]).Success?
    ensures ParseListing(cells) == Success(CellCandidates(cells[0]) + ParseListing(cells[1..]).value)
  {
    if cells[0].anchor.None? {
      assert [] + ParseListing(cells[1..]).value == ParseListing(cells[1..]).value;
    }
  }

  /** Two runs of name cells that both parse give their candidates one run
      after the other: the listing keeps document order, whatever the
      anchor texts hold. */
  lemma {:induction false} ParseListingAppend(a: seq<NameCell>, b: seq<NameCell>)
    requires ParseListing(a).Success? && ParseListing(b).Success?
    ensures ParseListing(a + b) == Success(ParseListing(a).value + ParseListing(b).value)
  {
    if |a| == 0 {
      assert ParseListing(a + b) == Success(ParseListing(a).value + ParseListing(b).value) by {
        assert a + b == b;
        assert ParseListing(a).value == [];
        assert [] + ParseListing(b).value == ParseListing(b).value;
      }
    } else {
      assert ParseListing(a + b) == Success(ParseListing(a).value + ParseListing(b).value) by {
        ParseListingUnfold(a);
        ParseListingAppend(a[1..], b);
        assert (a + b)[0] == a[0];
        assert (a + b)[1..] == a[1..] + b;
        ParseListingFold(a + b);
        ConcatAssoc(CellCandidates(a[0]), ParseListing(a[1..]).value, ParseListing(b).value);
      }
    }
  }

  /** A name cell without the anchor is skipped wherever it stands. */
  lemma {:induction false} BareCellSkipped(before: seq<NameCell>, after: seq<NameCell>)
    ensures ParseListing(before + [NameCell(None)] + after) == ParseListing(before + after)
  {
    if |before| == 0 {
      assert before + [NameCell(None)] + after == [NameCell(None)] + after;
      assert ([NameCell(None)] + after)[1..] == after;
      assert before + after == after;
    } else {
      assert (before + [NameCell(None)] + after)[0] == before[0];
      assert (before + [NameCell(None)] + after)[1..] == before[1..] + [NameCell(None)] + after;
      assert (before + after)[0] == before[0];
      assert (before + after)[1..] == before[1..] + after;
      BareCellSkipped(before[1..], after);
    }
  }

  // ---------------------------------------------------------------- profiles

  /** The text with every percent sign removed, everything else kept in order. */
  function StripPercent(s: string): (r: string)
    ensures '%' !in r
    ensures IsSubsequence(r, s)
    ensures forall c :: c != '%' ==> multiset(r)[c] == multiset(s)[c]
  {
    Filter(NotPercent, s)
  }

  predicate NotPercent(c: char) {
    c != '%'
  }

  /** The win rate read from the profile page's percentage text, if any:
      the text is stripped, every `%` removed, and the rest parsed. */
  function WinRate(text: Option<string>, parse: NumberParser): (rate: Option<real>)
    ensures text.None? ==> rate.None?
    ensures rate.Some? ==> exists s :: '%' !in s && parse(s) == rate
  {
    match text
    case None => None
    case Some(t) => parse(StripPercent(Trim(t)))
  }

  /** A percent sign anywhere inside the stripped text does not change the rate. */
  lemma WinRateIgnoresPercent(left: string, right: string, parse: NumberParser)
    requires IsTrimmed(left + right) && IsTrimmed(left + "%" + right)
    ensures WinRate(Some(left + "%" + right), parse) == WinRate(Some(left + right), parse)
  {
    TrimKeepsTrimmed(left + right);
    TrimKeepsTrimmed(left + "%" + right);
    assert left + "%" + right == left + ['%'] + right;
    FilterSkips(NotPercent, left, '%', right);
  }

  /** The win rate and the upcoming matches of a profile page. */
  function ParseProfile(page: ProfilePage, parse: NumberParser): (p: Profile)
    ensures p.winRate == WinRate(page.winRateText, parse)
    ensures page.winRateText.None? ==> p.winRate.None?
    ensures page.matchTable.None? ==> p.upcomingMatches == []
    ensures page.matchTable.Some? ==> |p.upcomingMatches| <= |page.matchTable.value|
    ensures page.matchTable.Some? ==> forall m :: m in p.upcomingMatches ==>
      exists row :: row in page.matchTable.value && |row| >= MinCells && MatchOf(row) == Some(m)
    ensures page.matchTable.Some? ==> forall row :: row in page.matchTable.value && |row| >= MinCells ==>
      MatchOf(row).value in p.upcomingMatches
    ensures forall m :: m in p.upcomingMatches ==> IsTrimmedMatch(m)
  {
    Profile(WinRate(page.winRateText, parse),
            match page.matchTable
            case None => []
            case Some(rows) => ProjectMatches(rows))
  }

  /** A profile page rebuilt from a rate text and a list of stripped matches
      parses back to that rate and those matches, in order. */
  lemma ProfileRoundTrip(rateText: Option<string>, ms: seq<Match>, lead: string, parse: NumberParser)
    requires forall i :: 0 <= i < |ms| ==> IsTrimmedMatch(ms[i])
    ensures ParseProfile(ProfilePage(rateText, Some(Map(CellsOf(lead), ms))), parse)
      == Profile(WinRate(rateText, parse), ms)
  {
    ProjectMatchesRoundTrip(ms, lead);
  }
}

=== FILE: seqs.dfy ===
/** Sequence combinators shared by the scraper, the qualification filter
    and the repository: order-preserving filters, partial maps and
    first-occurrence deduplication. */
module Seqs {
  import opened Wrappers

  /** `a` occurs in `b` in the same order, possibly with gaps. */
  predicate IsSubsequence<T(==)>(a: seq<T>, b: seq<T>)
    decreases |b|
  {
    if |a| == 0 then true
    else if |b| == 0 then false
    else (a[0] == b[0] && IsSubsequence(a[1..], b[1..])) || IsSubsequence(a, b[1..])
  }

  /** The elements of `s` satisfying `keep`, in order. */
  function Filter<T(==,!new)>(keep: T -> bool, s: seq<T>): (r: seq<T>)
    ensures IsSubsequence(r, s)
    ensures forall x :: multiset(r)[x] == if keep(x) then multiset(s)[x] else 0
    ensures forall x :: x in r <==> x in s && keep(x)
  {
    if |s| == 0 then []
    else
      assert s == [s[0]] + s[1..];
      if keep(s[0]) then [s[0]] + Filter(keep, s[1..]) else Filter(keep, s[1..])
  }

  /** The defined images `f(x)` of the elements of `s`, in order; elements
      mapped to `None` are skipped. */
  function Collect<A(==,!new), B(==,!new)>(f: A -> Option<B>, s: seq<A>): (r: seq<B>)
    ensures |r| <= |s|
    ensures forall y :: y in r ==> exists x :: x in s && f(x) == Some(y)
    ensures forall x :: x in s && f(x).Some? ==> f(x).value in r
  {
    if |s| == 0 then []
    else
      assert forall x :: x in s ==> x == s[0] || x in s[1..];
      match f(s[0])
      case None => Collect(f, s[1..])
      case Some(y) => [y] + Collect(f, s[1..])
  }

  lemma CollectCons<A(!new), B(!new)>(f: A -> Option<B>, x: A, s: seq<A>)
    ensures Collect(f, [x] + s) == match f(x) case None => Collect(f, s) case Some(y) => [y] + Collect(f, s)
  {
    assert ([x] + s)[0] == x;
    assert ([x] + s)[1..] == s;
  }

  /** Every element of `xs` mapped through `g`, in order. */
  function Map<A, B>(g: A -> B, xs: seq<A>): (ys: seq<B>)
    ensures |ys| == |xs|
  {
    if |xs| == 0 then [] else [g(xs[0])] + Map(g, xs[1..])
  }

  /** When `f` undoes `g` on every element, collecting through `f` undoes
      mapping through `g`. */
  lemma {:induction false} CollectUndoesMap<A(!new), B(!new)>(f: B -> Option<A>, g: A -> B, xs: seq<A>)
    requires forall i :: 0 <= i < |xs| ==> f(g(xs[i])) == Some(xs[i])
    ensures Collect(f, Map(g, xs)) == xs
  {
    if |xs| > 0 {
      CollectCons(f, g(xs[0]), Map(g, xs[1..]));
      CollectUndoesMap(f, g, xs[1..]);
      assert xs == [xs[0]] + xs[1..];
    }
  }

  /** Collecting distributes over concatenation: each element is handled on
      its own and the order is kept. */
  lemma {:induction false} CollectAppend<A(!new), B(!new)>(f: A -> Option<B>, a: seq<A>, b: seq<A>)
    ensures Collect(f, a + b) == Collect(f, a) + Collect(f, b)
  {
    if |a| == 0 {
      assert a + b == b;
    } else {
      assert (a + b)[1..] == a[1..] + b;
      CollectAppend(f, a[1..], b);
    }
  }

  /** An element mapped to `None` contributes nothing, wherever it stands. */
  lemma CollectSkips<A(!new), B(!new)>(f: A -> Option<B>, a: seq<A>, x: A, b: seq<A>)
    requires f(x).None?
    ensures Collect(f, a + [x] + b) == Collect(f, a + b)
  {
    assert Collect(f, [x]) == [] by {
      assert [x][1..] == [];
    }
    calc {
      Collect(f, a + [x] + b);
      == { CollectAppend(f, a + [x], b); }
      Collect(f, a + [x]) + Collect(f, b);
      == { CollectAppend(f, a, [x]); assert Collect(f, a) + [] == Collect(f, a); }
      Collect(f, a) + Collect(f, b);
      == { CollectAppend(f, a, b); }
      Collect(f, a + b);
    }
  }

  lemma {:induction false} FilterAppend<T(!new)>(keep: T -> bool, a: seq<T>, b: seq<T>)
    ensures Filter(keep, a + b) == Filter(keep, a) + Filter(keep, b)
  {
    if |a| == 0 {
      assert a + b == b;
    } else {
      assert (a + b)[1..] == a[1..] + b;
      FilterAppend(keep, a[1..], b);
    }
  }

  /** Concatenation regroups freely. */
  lemma ConcatAssoc<T>(a: seq<T>, b: seq<T>, c: seq<T>)
    ensures a + (b + c) == (a + b) + c
  {
  }

  /** Some element of `s` satisfies `p`. */
  predicate SomeHolds<T>(p: T -> bool, s: seq<T>) {
    exists i :: 0 <= i < |s| && p(s[i])
  }

  lemma SomeHoldsCons<T>(p: T -> bool, s: seq<T>)
    requires |s| > 0
    ensures SomeHolds(p, s) <==> p(s[0]) || SomeHolds(p, s[1..])
  {
    if SomeHolds(p, s[1..]) {
      var i :| 0 <= i < |s| - 1 && p(s[1..][i]);
      assert s[i + 1] == s[1..][i];
    }
    if SomeHolds(p, s) && !p(s[0]) {
      var i :| 0 <= i < |s| && p(s[i]);
      assert s[1..][i - 1] == s[i];
    }
  }

  lemma FilterDrops<T(!new)>(keep: T -> bool, x: T)
    requires !keep(x)
    ensures Filter(keep, [x]) == []
  {
    assert [x][1..] == [];
  }

  lemma {:induction false} FilterKeepsAll<T(!new)>(keep: T -> bool, s: seq<T>)
    requires forall x :: x in s ==> keep(x)
    ensures Filter(keep, s) == s
  {
    if |s| > 0 {
      assert forall x :: x in s[1..] ==> x in s;
      FilterKeepsAll(keep, s[1..]);
      assert s == [s[0]] + s[1..];
    }
  }

  /** An element failing the test contributes nothing, wherever it stands. */
  lemma FilterSkips<T(!new)>(keep: T -> bool, a: seq<T>, x: T, b: seq<T>)
    requires !keep(x)
    ensures Filter(keep, a + [x] + b) == Filter(keep, a + b)
  {
    FilterDrops(keep, x);
    calc {
      Filter(keep, a + [x] + b);
      { FilterAppend(keep, a + [x], b); }
      Filter(keep, a + [x]) + Filter(keep, b);
      { FilterAppend(keep, a, [x]); }
      Filter(keep, a) + Filter(keep, b);
      { FilterAppend(keep, a, b); }
      Filter(keep, a + b);
    }
  }

  /** The keys of the elements of `s`. */
  function KeySet<T(==,!new), K(==,!new)>(key: T -> K, s: seq<T>): (ks: set<K>)
    ensures forall x :: x in s ==> key(x) in ks
    ensures forall k :: k in ks ==> exists x :: x in s && key(x) == k
  {
    set x | x in s :: key(x)
  }

  lemma KeySetCons<T(!new), K(!new)>(key: T -> K, x: T, s: seq<T>)
    ensures KeySet(key, [x] + s) == {key(x)} + KeySet(key, s)
  {
    var l := KeySet(key, [x] + s);
    var r := {key(x)} + KeySet(key, s);
    forall k | k in l ensures k in r {
      var y :| y in [x] + s && key(y) == k;
      assert y == x || y in s;
    }
    forall k | k in r ensures k in l {
      if k != key(x) {
        var y :| y in s && key(y) == k;
        assert y in [x] + s;
      }
    }
  }

  /** The elements of `s` whose key is not in `seen` and was not met
      earlier in `s`: the first occurrence of each key wins. */
  function DedupBy<T(==,!new), K(==,!new)>(key: T -> K, s: seq<T>, seen: set<K>): (r: seq<T>)
    ensures |r| <= |s|
    ensures forall x :: x in r ==> x in s
    ensures forall i :: 0 <= i < |r| ==> key(r[i]) !in seen
    ensures forall i, j :: 0 <= i < j < |r| ==> key(r[i]) != key(r[j])
    ensures KeySet(key, r) == KeySet(key, s) - seen
  {
    if |s| == 0 then []
    else
      KeySetCons(key, s[0], s[1..]);
      assert s == [s[0]] + s[1..];
      if key(s[0]) in seen then DedupBy(key, s[1..], seen)
      else
        var rest := DedupBy(key, s[1..], seen + {key(s[0])});
        KeySetCons(key, s[0], rest);
        assert forall j :: 0 < j <= |rest| ==> ([s[0]] + rest)[j] == rest[j - 1];
        [s[0]] + rest
  }

  /** One step of deduplication. */
  lemma DedupCons<T(!new), K(!new)>(key: T -> K, x: T, rest: seq<T>, seen: set<K>)
    ensures DedupBy(key, [x] + rest, seen)
         == if key(x) in seen then DedupBy(key, rest, seen) else [x] + DedupBy(key, rest, seen + {key(x)})
  {
    assert ([x] + rest)[0] == x;
    assert ([x] + rest)[1..] == rest;
  }

  lemma KeySetSnoc<T(!new), K(!new)>(key: T -> K, s: seq<T>, x: T)
    ensures KeySet(key, s + [x]) == KeySet(key, s) + {key(x)}
  {
    var l := KeySet(key, s + [x]);
    forall k | k in l ensures k in KeySet(key, s) + {key(x)} {
      var y :| y in s + [x] && key(y) == k;
      assert y in s || y == x;
    }
  }

  /** Deduplication done incrementally: keeping a new element appends it to
      the kept prefix and adds its key to the seen set. */
  lemma DedupKeepStep<T(!new), K(!new)>(key: T -> K, kept: seq<T>, x: T, rest: seq<T>)
    requires key(x) !in KeySet(key, kept)
    ensures KeySet(key, kept + [x]) == KeySet(key, kept) + {key(x)}
    ensures kept + DedupBy(key, [x] + rest, KeySet(key, kept))
         == (kept + [x]) + DedupBy(key, rest, KeySet(key, kept + [x]))
  {
    KeySetSnoc(key, kept, x);
    DedupCons(key, x, rest, KeySet(key, kept));
  }

  /** Deduplication done incrementally: an element whose key was seen is skipped. */
  lemma DedupSkipStep<T(!new), K(!new)>(key: T -> K, kept: seq<T>, x: T, rest: seq<T>)
    requires key(x) in KeySet(key, kept)
    ensures DedupBy(key, [x] + rest, KeySet(key, kept)) == DedupBy(key, rest, KeySet(key, kept))
  {
    DedupCons(key, x, rest, KeySet(key, kept));
  }

  /** Deduplicating a concatenation handles the first part on its own, then
      the second part with the keys of the first part already seen. */
  lemma {:induction false} DedupAppend<T(!new), K(!new)>(key: T -> K, a: seq<T>, b: seq<T>, seen: set<K>)
    ensures DedupBy(key, a + b, seen) == DedupBy(key, a, seen) + DedupBy(key, b, seen + KeySet(key, a))
  {
    if |a| == 0 {
      assert a + b == b;
      assert KeySet(key, a) == {};
      assert seen + KeySet(key, a) == seen;
    } else {
      var x, a' := a[0], a[1..];
      assert a == [x] + a';
      assert a + b == [x] + (a' + b);
      assert KeySet(key, a) == {key(x)} + KeySet(key, a') by { KeySetCons(key, x, a'); }
      if key(x) in seen {
        calc {
          DedupBy(key, a + b, seen);
          == { DedupCons(key, x, a' + b, seen); }
          DedupBy(key, a' + b, seen);
          == { DedupAppend(key, a', b, seen); }
          DedupBy(key, a', seen) + DedupBy(key, b, seen + KeySet(key, a'));
          == { assert seen + KeySet(key, a') == seen + KeySet(key, a); }
          DedupBy(key, a', seen) + DedupBy(key, b, seen + KeySet(key, a));
          == { DedupCons(key, x, a', seen); }
          DedupBy(key, a, seen) + DedupBy(key, b, seen + KeySet(key, a));
        }
      } else {
        var seenX := seen + {key(x)};
        calc {
          DedupBy(key, a + b, seen);
          == { DedupCons(key, x, a' + b, seen); }
          [x] + DedupBy(key, a' + b, seenX);
          == { DedupAppend(key, a', b, seenX); }
          [x] + (DedupBy(key, a', seenX) + DedupBy(key, b, seenX + KeySet(key, a')));
          == { assert seenX + KeySet(key, a') == seen + KeySet(key, a); }
          [x] + (DedupBy(key, a', seenX) + DedupBy(key, b, seen + KeySet(key, a)));
          ([x] + DedupBy(key, a', seenX)) + DedupBy(key, b, seen + KeySet(key, a));
          == { DedupCons(key, x, a', seen); }
          DedupBy(key, a, seen) + DedupBy(key, b, seen + KeySet(key, a));
        }
      }
    }
  }

  /** An element whose key is neither seen nor carried by anything before it
      is kept, and it is the only kept element with that key. */
  lemma DedupFirstWins<T(!new), K(!new)>(key: T -> K, p: seq<T>, x: T, q: seq<T>, seen: set<K>)
    requires key(x) !in seen && key(x) !in KeySet(key, p)
    ensures x in DedupBy(key, p + [x] + q, seen)
    ensures forall y :: y in DedupBy(key, p + [x] + q, seen) && key(y) == key(x) ==> y == x
  {
    var head := DedupBy(key, p, seen);
    var rest := DedupBy(key, q, seen + KeySet(key, p) + {key(x)});
    DedupAround(key, p, x, q, seen);
    assert key(x) !in KeySet(key, head);
    assert forall i :: 0 <= i < |rest| ==> key(rest[i]) != key(x);
    OnlyOneWithKey(key, head, x, rest);
  }

  /** Deduplication around an element whose key is new. */
  lemma DedupAround<T(!new), K(!new)>(key: T -> K, p: seq<T>, x: T, q: seq<T>, seen: set<K>)
    requires key(x) !in seen + KeySet(key, p)
    ensures DedupBy(key, p + [x] + q, seen)
         == DedupBy(key, p, seen) + [x] + DedupBy(key, q, seen + KeySet(key, p) + {key(x)})
  {
    var seen' := seen + KeySet(key, p);
    assert DedupBy(key, [x], seen') == [x] by {
      DedupCons(key, x, [], seen');
      assert [x] + [] == [x];
    }
    assert seen + KeySet(key, p + [x]) == seen' + {key(x)} by {
      KeySetSnoc(key, p, x);
    }
    DedupAppend(key, p + [x], q, seen);
    DedupAppend(key, p, [x], seen);
  }

  lemma OnlyOneWithKey<T(!new), K(!new)>(key: T -> K, head: seq<T>, x: T, rest: seq<T>)
    requires key(x) !in KeySet(key, head)
    requires forall i :: 0 <= i < |rest| ==> key(rest[i]) != key(x)
    ensures x in head + [x] + rest
    ensures forall y :: y in head + [x] + rest && key(y) == key(x) ==> y == x
  {
    assert (head + [x] + rest)[|head|] == x;
  }

  /** A later element whose key was already met is dropped and leaves the
      earlier result unchanged. */
  lemma DedupDropsLaterDuplicate<T(!new), K(!new)>(key: T -> K, s: seq<T>, x: T, seen: set<K>)
    requires key(x) in seen + KeySet(key, s)
    ensures DedupBy(key, s + [x], seen) == DedupBy(key, s, seen)
  {
    DedupAppend(key, s, [x], seen);
    assert DedupBy(key, [x], seen + KeySet(key, s)) == [];
  }
}

=== FILE: text.dfy ===
/** Python's `str.strip()` with no argument, which the scraper applies to
    every cell text, anchor text and tipster name. */
module Text {

  /** The characters for which Python's `str.isspace()` holds. */
  predicate IsSpace(c: char) {
    || c == ' '
    || '\t' <= c <= '\r'
    || '\U{001C}' <= c <= '\U{001F}'
    || c == '\U{0085}' || c == '\U{00A0}' || c == '\U{1680}'
    || '\U{2000}' <= c <= '\U{200A}'
    || c == '\U{2028}' || c == '\U{2029}' || c == '\U{202F}' || c == '\U{205F}' || c == '\U{3000}'
  }

  predicate AllSpace(s: string) {
    forall i :: 0 <= i < |s| ==> IsSpace(s[i])
  }

  /** Neither end of `s` is whitespace. */
  predicate IsTrimmed(s: string) {
    |s| == 0 || (!IsSpace(s[0]) && !IsSpace(s[|s| - 1]))
  }

  function TrimLeft(s: string): (r: string)
    ensures |r| <= |s|
    ensures |r| > 0 ==> !IsSpace(r[0])
  {
    if |s| > 0 && IsSpace(s[0]) then TrimLeft(s[1..]) else s
  }

  function TrimRight(s: string): (r: string)
    ensures |r| <= |s|
    ensures |r| > 0 ==> r[0] == s[0] && !IsSpace(r[|r| - 1])
  {
    if |s| > 0 && IsSpace(s[|s| - 1]) then TrimRight(s[..|s| - 1]) else s
  }

  /** `s` without its leading and trailing whitespace. */
  function Trim(s: string): (r: string)
    ensures IsTrimmed(r)
    ensures |r| <= |s|
  {
    var l := TrimLeft(s);
    var r := TrimRight(l);
    assert |r| > 0 ==> r[0] == l[0];
    r
  }

  /** TrimLeft cuts a whitespace prefix and keeps the rest. */
  lemma {:induction false} TrimLeftCuts(s: string)
    ensures TrimLeft(s) == s[|s| - |TrimLeft(s)|..] && AllSpace(s[..|s| - |TrimLeft(s)|])
  {
    if |s| > 0 && IsSpace(s[0]) {
      TrimLeftCuts(s[1..]);
      var r := TrimLeft(s[1..]);
      assert s[..|s| - |r|] == [s[0]] + s[1..][..|s| - 1 - |r|];
    }
  }

  /** TrimRight cuts a whitespace suffix and keeps the rest. */
  lemma {:induction false} TrimRightCuts(s: string)
    ensures TrimRight(s) == s[..|TrimRight(s)|] && AllSpace(s[|TrimRight(s)|..])
  {
    if |s| > 0 && IsSpace(s[|s| - 1]) {
      TrimRightCuts(s[..|s| - 1]);
      var r := TrimRight(s[..|s| - 1]);
      assert s[|r|..] == s[..|s| - 1][|r|..] + [s[|s| - 1]];
    }
  }

  /** Stripping keeps a contiguous middle part of the text and cuts only
      whitespace from either end. */
  lemma TrimCutsOnlySpace(s: string)
    ensures exists i, j :: 0 <= i <= j <= |s| && Trim(s) == s[i..j] && AllSpace(s[..i]) && AllSpace(s[j..])
  {
    var l := TrimLeft(s);
    var r := TrimRight(l);
    TrimLeftCuts(s);
    TrimRightCuts(l);
    var i := |s| - |l|;
    assert s[i..i + |r|] == r && s[i + |r|..] == l[|r|..];
  }

  lemma {:induction false} TrimLeftPadded(pad: string, s: string)
    requires AllSpace(pad)
    requires |s| == 0 || !IsSpace(s[0])
    ensures TrimLeft(pad + s) == s
  {
    if |pad| > 0 {
      assert (pad + s)[1..] == pad[1..] + s;
      TrimLeftPadded(pad[1..], s);
    } else {
      assert pad + s == s;
    }
  }

  lemma {:induction false} TrimRightPadded(s: string, pad: string)
    requires AllSpace(pad)
    requires |s| == 0 || !IsSpace(s[|s| - 1])
    ensures TrimRight(s + pad) == s
  {
    if |pad| > 0 {
      assert (s + pad)[..|s + pad| - 1] == s + pad[..|pad| - 1];
      TrimRightPadded(s, pad[..|pad| - 1]);
    } else {
      assert s + pad == s;
    }
  }

  /** Trim removes exactly the whitespace padding around a trimmed text. */
  lemma TrimPadded(left: string, s: string, right: string)
    requires AllSpace(left) && AllSpace(right) && IsTrimmed(s)
    ensures Trim(left + s + right) == s
  {
    if |s| == 0 {
      assert left + s + right == left + right;
      assert AllSpace(left + right);
      TrimLeftPadded(left + right, "");
      assert left + right + "" == left + right;
      assert TrimLeft(left + s + right) == "";
    } else {
      assert left + s + right == left + (s + right);
      TrimLeftPadded(left, s + right);
      TrimRightPadded(s, right);
    }
  }

  /** Stripping a text without whitespace at either end changes nothing. */
  lemma TrimKeepsTrimmed(s: string)
    requires IsTrimmed(s)
    ensures Trim(s) == s
  {
    TrimPadded("", s, "");
    assert "" + s + "" == s;
  }

  /** Stripping an already stripped text changes nothing. */
  lemma TrimIdempotent(s: string)
    ensures Trim(Trim(s)) == Trim(s)
  {
    TrimKeepsTrimmed(Trim(s));
  }
}

=== FILE: wrappers.dfy ===
/** Optional values and results with an error, used where the scraper
    returns `None`, an empty list, or lets an exception escape. */
module Wrappers {

  datatype Option<+T> = None | Some(value: T)

  datatype Result<+R, +E> = Success(value: R) | Failure(error: E)
}
